=== FILE: README.md ===
# Outbound file step: a Dafny model

`kronos-adapter-outbound-file` is a terminal step of a Kronos message flow.
Its one passive inbound endpoint, `inWriteFile`, receives messages that carry
a `file_name` in their header and a readable stream as their payload. The step
writes each payload to a file. The directory and the encoding come from the
step's configuration.

This project models the per-message decision the step makes. Given the step's
configured `directory` and `encoding` and an inbound message, the step either
starts exactly one write (a target path, an encoding and the payload stream)
or reports exactly one error to its `error` channel. The error carries one of
three fixed short messages and names the endpoint `inWriteFile`.

- `js_values.dfy` (`JsValues`): an undefined property is `None`. JavaScript's
  `if (x)` on a string property is `Truthy`.
- `paths.dfy` (`Paths`): POSIX path strings as an absolute flag plus
  segments. It has a parser and printer with a round-trip proof, `basename`
  scanning from the end and proved equal to the parser's last segment, and
  `join`.
- `outbound_file.dfy` (`OutboundFile`): the configuration capture
  (`Initialize`), the encoding choice, `_writeFile`, the path policy and the
  whole decision `Decide`. `ReceiveWriteFileMessage` and `WriteFileEffects`
  follow the handler statement by statement and record every `error` call and
  every write stream opened. Their contracts prove that these recorded effects
  are those of `Decide`, and that a message with a header gets exactly one of
  them.
- `outbound_file_properties.dfy` (`OutboundFileProperties`): one lemma per
  case of the path policy, plus the encoding choice and the one-outcome
  guarantee. It also has concrete scenarios (`/out` with `a.csv`, `/tmp/a.csv`,
  `base64`, and the three errors).

Points where the code behaves differently from what one might assume:
- `initialize` stores any truthy directory unchecked (lines 23-26). A relative
  directory therefore gives relative targets, which the file system resolves
  against the process's working directory.
  `TargetAbsoluteUnlessDirectoryRelative` states this.
- The handler reads `message.header.file_name` (line 60). A message without a
  `header` object makes that read throw rather than produce an error report.
  This is the `Thrown` outcome. The newer test suite (`tests/`) sends its
  header as `info`. The model follows the code's `header`.
- With a directory, an absolute name keeps only its basename (lines 63-66).
  The model proves this on segments: the target's segments are the
  directory's followed by the name's last segment. `path.basename('/x/..')`
  is `..`, which Node's `path.join` resolves to the directory's parent. This
  model does not resolve `..`.

## Model

| member | source | states |
|---|---|---|
| JsValues.KeepIfTruthy | lib/adapter-outbound-file.js:23-26 | a supplied value is kept exactly when it is truthy, and then unchanged; what is kept is truthy whenever it is present |
| OutboundFile.Initialize | lib/adapter-outbound-file.js:20-41 | a step exists exactly when a configuration object is given; each of `directory` and `encoding` is set exactly when the supplied value is truthy, and then equals it |
| OutboundFileProperties.DirectoryStoredUnvalidated | lib/adapter-outbound-file.js:23-29 | any non-empty directory, such as the nonexistent relative `path/to/nowhere`, is stored unchanged |
| OutboundFileProperties.InitializeIdempotent | lib/adapter-outbound-file.js:20-41 | capturing a step's own properties again yields the same step |
| OutboundFile.KindOf | lib/adapter-outbound-file.js:78-116 | the three short messages are pairwise distinct, so the error kind can be read back from a report |
| OutboundFile.Report | lib/adapter-outbound-file.js:86-90 | an error report carries the message, names endpoint `inWriteFile`, and its short message identifies its kind |
| OutboundFile.WriteEncoding | lib/adapter-outbound-file.js:100-106 | the write encoding is never empty; it is the configured encoding when that is truthy and `binary` otherwise |
| OutboundFileProperties.EncodingFromConfiguration | lib/adapter-outbound-file.js:31-39 | through `initialize`, a truthy configured encoding reaches the write unchanged; otherwise the write uses `binary` |
| OutboundFile.WriteFile | lib/adapter-outbound-file.js:99-117 | a write happens exactly when a payload is present, and it writes that payload to the given target with the step's encoding; otherwise the outcome is the missing-payload report (given an encoding `fs` accepts and a payload that is a stream) |
| OutboundFile.WriteFileEffects | lib/adapter-outbound-file.js:99-117 | `_writeFile` as statements opens one write stream or makes one `error` call, never both; it opens a stream exactly when there is a payload; its effects are those of `WriteFile` (given an encoding `fs` accepts and a payload that is a stream) |
| OutboundFile.ResolveTarget | lib/adapter-outbound-file.js:61-84 | a name is refused exactly when no directory is configured and the name is relative; with no directory an absolute name is the target verbatim; with a directory the target reads as the directory's segments followed by the name's last segment (absolute name) or all its segments (relative name), and is written in normal form (printing its parse gives it back) |
| OutboundFile.Decide | lib/adapter-outbound-file.js:59-92 | a headerless message throws and is the only thrown outcome in the model; every error report names the message, `inWriteFile` and one of the three kinds; a write carries the message's payload and the step's encoding and goes to the resolved target of a truthy file name |
| OutboundFile.Log | lib/adapter-outbound-file.js:78-115 | an outcome other than a throw makes exactly one visible call (one `error` call or one write stream), and a throw makes none |
| OutboundFile.ReceiveWriteFileMessage | lib/adapter-outbound-file.js:59-92 | the handler as statements throws exactly for a headerless message (given an encoding `fs` accepts and a payload that is a stream); otherwise it makes exactly one `error` call or one write, never both and never neither; its effects are those of `Decide` |
| OutboundFileProperties.MissingFileNameReported | lib/adapter-outbound-file.js:85-91 | a missing or empty `file_name` gives only the missing-file-name report and no write, whatever the configuration and payload |
| OutboundFileProperties.AbsoluteNameUnderDirectory | lib/adapter-outbound-file.js:63-66 | with a directory and an absolute name, the write goes to `join(directory, basename(name))`, whose segments are the directory's plus the name's last segment only |
| OutboundFileProperties.AbsoluteNamesShareTarget | lib/adapter-outbound-file.js:63-66 | with a directory, two absolute names that share a last segment produce the same write: the name's directory part is discarded |
| OutboundFileProperties.RelativeNameUnderDirectory | lib/adapter-outbound-file.js:67-68 | with a directory and a relative name, the write goes to `join(directory, name)`, whose segments are the directory's followed by all of the name's |
| OutboundFileProperties.AbsoluteNameWithoutDirectory | lib/adapter-outbound-file.js:73-75 | with no directory and an absolute name, the write goes to exactly that name |
| OutboundFileProperties.RelativeNameWithoutDirectory | lib/adapter-outbound-file.js:76-83 | with no directory and a relative name, only the relative-path report is made and there is no write; the payload makes no difference |
| OutboundFileProperties.PayloadDecidesWrite | lib/adapter-outbound-file.js:107-116 | once a target resolves, a payload gives one write of it to that target and no payload gives only the missing-payload report |
| OutboundFileProperties.ExactlyOneOutcome | lib/adapter-outbound-file.js:59-117 | every message with a header yields exactly one write or exactly one error report (given an encoding `fs` accepts and a payload that is a stream) |
| OutboundFileProperties.ErrorKindClassified | lib/adapter-outbound-file.js:59-117 | for every message with a header and every kind, the message draws that kind of report exactly when the kind's condition on file name, directory and absoluteness holds (for a missing payload, also when there is no payload) |
| OutboundFileProperties.DrawnKind | lib/adapter-outbound-file.js:59-117 | a message with a header either writes, or draws the report of a kind whose condition holds; a missing-payload report only comes without a payload |
| OutboundFileProperties.DrawsErrorExclusive | lib/adapter-outbound-file.js:59-117 | at most one of the three error conditions holds for a header |
| OutboundFileProperties.ReportDeterminesKind | lib/adapter-outbound-file.js:78-116 | two reports about the same message are equal exactly when their kinds are |
| OutboundFileProperties.TargetAbsoluteUnlessDirectoryRelative | lib/adapter-outbound-file.js:63-75 | a write target is absolute exactly when no directory is configured or the configured directory is absolute |
| OutboundFileProperties.RelativeNameScenario | test/adapter-outbound-file_test.js:142-152 | directory `/out` and name `a.csv` write `/out/a.csv` in `binary` |
| OutboundFileProperties.AbsoluteNameScenario | test/adapter-outbound-file_test.js:130-140 | directory `/out` and name `/tmp/a.csv` write `/out/a.csv` |
| OutboundFileProperties.CustomEncodingScenario | test/adapter-outbound-file_test.js:154-165 | a configured `base64` encoding reaches the write unchanged |
| OutboundFileProperties.RelativeNameWithoutDirectoryScenario | test/adapter-outbound-file_test.js:168-177 | no directory and name `a.csv` give the relative-path short message |
| OutboundFileProperties.MissingPayloadScenario | test/adapter-outbound-file_test.js:179-189 | a resolvable name without a payload gives the missing-payload report |
| OutboundFileProperties.MissingFileNameScenario | test/adapter-outbound-file_test.js:191-201 | a header without `file_name` gives the missing-file-name report |
| Paths.Parse | lib/adapter-outbound-file.js:65 | a parsed path has only non-empty, separator-free segments and is absolute exactly when the string starts with `/` (`path.isAbsolute`) |
| Paths.ParseRender | lib/adapter-outbound-file.js:66-68 | printing a canonical path and parsing it back gives the same path |
| Paths.LastRun | lib/adapter-outbound-file.js:66 | the result is the longest separator-free suffix of the string |
| Paths.Basename | lib/adapter-outbound-file.js:66 | `path.basename` never contains a separator |
| Paths.BasenameIsLastSegment | lib/adapter-outbound-file.js:66 | `basename`, which scans from the end, returns the last segment the front-to-back parser finds, or "" when there is none |
| Paths.BasenameSegments | lib/adapter-outbound-file.js:66 | a basename is relative and has the path's last segment as its only segment |
| Paths.Join | lib/adapter-outbound-file.js:66-68 | `path.join` reads back as the directory's segments followed by the name's, is absolute exactly when the directory is, and is already in normal form (printing its parse gives it back) |

## Left out

- Writing the bytes (`fs.createWriteStream` and `stream.pipe`, lines 108-109) is asynchronous file I/O. It appears only as a `WriteRequest` (target, encoding, source stream). Failures during the transfer are therefore not modelled. Overwriting and partial files are not modelled either.
- `finalize` (lines 42-54) and its passive generator loop are endpoint and lifecycle plumbing of the step framework. `isRunning` belongs to that framework.
- `index.js` only registers the step with a manager.
- Encoding names are passed through to `fs.createWriteStream` unchanged, and the model does not interpret them. `fs` itself checks the name when the stream is created (line 108) and throws on one it does not know. An `iconv-lite` name such as `win1252` is one example. The model does not represent that throw.
- OutboundFile.WriteFile: assumes the step's encoding is one `fs.createWriteStream` accepts and that a present payload is a stream with `pipe`. With an unknown encoding, `fs.createWriteStream` throws at line 108: no stream is opened, no file is touched and `error` is not called. With a payload that has no `pipe`, line 108 has already opened a write stream, which opens the target with flag `w` and so may create it or truncate it to empty; then `stream.pipe` throws at line 109, nothing is written into the stream and `error` is not called. In both cases `WriteFile` returns `Write` instead.
- OutboundFile.WriteFileEffects: makes the same assumption about the encoding and the payload. With an unknown encoding, line 108 throws before any stream exists, so "one write stream or one `error` call" and "a stream exactly when there is a payload" fail: there is a payload and no stream. With a payload that has no `pipe`, one stream is opened for the present payload (and the target may be created or truncated), but line 109 throws and nothing is piped into it; the recorded `WriteRequest` then stands for a stream that receives no data.
- OutboundFile.Decide: assumes the step's encoding is one `fs.createWriteStream` accepts and that a present payload is a stream with `pipe`. Otherwise the handler throws with no `error` call, but `Decide` returns `Write`. With an unknown encoding the throw is at line 108 and no stream or file is touched. With a payload that has no `pipe` the throw is at line 109, after line 108 has opened the target with flag `w`, so the file may be created or truncated to empty while nothing is written into it. A headerless message is the only `Thrown` outcome in the model.
- OutboundFile.ReceiveWriteFileMessage: makes the same assumption about the encoding and the payload. Without it the handler throws: at line 108 (unknown encoding) with no stream and no `error` call, so "exactly one write or one error for a message with a header" fails; or at line 109 (payload without `pipe`) after a write stream has been opened on the target, which may create or truncate it, with nothing piped in and no `error` call.
- OutboundFileProperties.ExactlyOneOutcome: holds only under the same assumption about the encoding and the payload as `OutboundFile.Decide`.
- Paths: the model fixes Node's POSIX `path` module. On Windows, `require("path")` (line 6) is `path.win32`, where `\` is also a separator and names such as `C:\x` are absolute; that variant is not modelled.
- Paths.Join: does not resolve `.` and `..` segments and does not keep a trailing separator, both of which Node's `path.join` does. It also does not return `.` for an empty relative result. Nothing is claimed about relative names containing `..` staying inside the directory.
- Configuration and header values are modelled as strings or undefined. Other JavaScript values have different truthiness (`0`, `false`, `null`). A truthy non-string directory or file name makes Node's path functions throw.
- The `message` field of an error report is the whole message object. The model keeps it as the `Message` value.

=== FILE: js_values.dfy ===
/** JavaScript values as the outbound file step sees them.

A property that may be missing from a configuration object or a message header
is an `Option`: `None` stands for `undefined`. JavaScript's `if (value)` test is
`Truthy`: for the strings this model carries, only `undefined` and the empty
string are falsy.
 */
module JsValues {

  datatype Option<+T> = None | Some(value: T)

  /** `if (s)` for a string property that may be undefined */
  predicate Truthy(s: Option<string>) {
    s.Some? && s.value != ""
  }

  /** `let x; if (supplied) { x = supplied; }`: keeps a supplied value only when it is truthy */
  function KeepIfTruthy(supplied: Option<string>): (kept: Option<string>)
    ensures kept.Some? <==> Truthy(supplied)
    ensures kept.Some? ==> kept == supplied
    ensures Truthy(kept) <==> kept.Some?
  {
    if Truthy(supplied) then supplied else None
  }
}

=== FILE: outbound_file.dfy ===
/** The outbound file step `kronos-adapter-outbound-file`.

The step has one passive inbound endpoint, `inWriteFile`. For each message it
receives it either starts one write of the message's payload stream to a file,
or reports one error through the step's `error` channel. `Decide` is that
choice as a pure function; `ReceiveWriteFileMessage` follows the handler
statement by statement and records each `error` call and each write stream
it opens, and its contract ties the two together.
 */
module OutboundFile {
  import opened JsValues
  import Paths

  /** The step's one inbound endpoint; every error report names it */
  const EndpointName: string := "inWriteFile"

  /** The write stream's encoding when the step configures none */
  const DefaultEncoding: string := "binary"

  /** The three errors the step reports, one per validation it performs */
  datatype ErrorKind = MissingFileName | RelativePathWithoutDirectory | MissingPayload

  /** The `short_message` of each error report */
  function ShortMessage(kind: ErrorKind): string {
    match kind
    case MissingFileName => "No 'file_name' property in the header"
    case RelativePathWithoutDirectory =>
      "If there is no directory in the step configuration, then the file names must be absolute"
    case MissingPayload => "The payload of the message has no stream"
  }

  /** Reads the error kind back from a report's short message; the short
      messages are distinct, so each kind is recovered exactly */
  function KindOf(shortMessage: string): (kind: Option<ErrorKind>)
    ensures kind.Some? ==> ShortMessage(kind.value) == shortMessage
    ensures forall k :: ShortMessage(k) == shortMessage ==> kind == Some(k)
  {
    if shortMessage == ShortMessage(MissingFileName) then Some(MissingFileName)
    else if shortMessage == ShortMessage(RelativePathWithoutDirectory) then Some(RelativePathWithoutDirectory)
    else if shortMessage == ShortMessage(MissingPayload) then Some(MissingPayload)
    else None
  }

  /** The configuration object handed to the step's `initialize` */
  datatype StepConfig = StepConfig(directory: Option<string>, encoding: Option<string>)

  /** The properties `initialize` defines on the step; they never change afterwards */
  datatype Step = Step(directory: Option<string>, encoding: Option<string>)

  /** `initialize`: copies `directory` and `encoding` into the step, each only
      when the supplied value is truthy, and validates neither. Without a
      configuration object the property read throws, and no step exists. */
  function Initialize(config: Option<StepConfig>): (step: Option<Step>)
    ensures step.Some? <==> config.Some?
    ensures step.Some? ==> (step.value.directory.Some? <==> Truthy(config.value.directory))
    ensures step.Some? && step.value.directory.Some? ==> step.value.directory == config.value.directory
    ensures step.Some? ==> (step.value.encoding.Some? <==> Truthy(config.value.encoding))
    ensures step.Some? && step.value.encoding.Some? ==> step.value.encoding == config.value.encoding
  {
    match config
    case None => None
    case Some(c) => Some(Step(KeepIfTruthy(c.directory), KeepIfTruthy(c.encoding)))
  }

  /** The header of an inbound message; only `file_name` is read */
  datatype Header = Header(fileName: Option<string>)

  /** A readable stream handle; the step never looks inside it */
  datatype Stream = Stream(handle: nat)

  /** An inbound message. A message without a `header` object is possible
      and makes the handler throw. */
  datatype Message = Message(header: Option<Header>, payload: Option<Stream>)

  /** The object passed to the step's `error` channel */
  datatype ErrorReport = ErrorReport(message: Message, shortMessage: string, endpoint: string)

  /** `fs.createWriteStream(target, {encoding})` with `source` piped into it */
  datatype WriteRequest = WriteRequest(target: string, encoding: string, source: Stream)

  /** What handling one message amounts to: one write, one error report, or
      an exception escaping the handler */
  datatype Outcome = Write(request: WriteRequest) | Error(report: ErrorReport) | Thrown

  function Report(message: Message, kind: ErrorKind): (report: ErrorReport)
    ensures report.message == message && report.endpoint == EndpointName
    ensures KindOf(report.shortMessage) == Some(kind)
  {
    ErrorReport(message, ShortMessage(kind), EndpointName)
  }

  /** The encoding option of the write stream: a configured encoding is used
      unchanged, otherwise `binary` */
  function WriteEncoding(step: Step): (encoding: string)
    ensures encoding != ""
    ensures Truthy(step.encoding) ==> encoding == step.encoding.value
    ensures !Truthy(step.encoding) ==> encoding == DefaultEncoding
  {
    if Truthy(step.encoding) then step.encoding.value else DefaultEncoding
  }

  /** `_writeFile`: with a payload, one write of it to `target`; without one,
      the missing-payload error and no write (given an encoding `fs` accepts
      and a payload that is a stream; otherwise opening or piping the write
      stream throws, which is not modelled) */
  function WriteFile(step: Step, message: Message, target: string): (o: Outcome)
    ensures o.Write? <==> message.payload.Some?
    ensures o.Write? ==> o.request == WriteRequest(target, WriteEncoding(step), message.payload.value)
    ensures !o.Write? ==> o == Error(Report(message, MissingPayload))
  {
    match message.payload
    case Some(stream) => Write(WriteRequest(target, WriteEncoding(step), stream))
    case None => Error(Report(message, MissingPayload))
  }

  /** The path policy of `_receiveWriteFileMessage` for a present file name:
      the file to write, or None when the name cannot be placed. With a
      directory, the target's segments are the directory's followed by the
      name's last segment (absolute name) or all of its segments (relative
      name); Node then resolves `.` and `..`, which can leave the directory
      (`../etc`, or `/x/..` whose basename is `..`), and an absolute name
      without segments (`/`) names the directory itself. Without a
      directory, an absolute name is used verbatim and a relative name is
      refused. */
  function ResolveTarget(directory: Option<string>, fileName: string): (target: Option<string>)
    ensures target.None? <==> !Truthy(directory) && !Paths.IsAbsolute(fileName)
    ensures !Truthy(directory) && Paths.IsAbsolute(fileName) ==> target == Some(fileName)
    ensures Truthy(directory) ==>
              && target.Some?
              && Paths.Parse(target.value) ==
                 Paths.Path(Paths.IsAbsolute(directory.value),
                            Paths.Segments(directory.value) + NameSegments(fileName))
    ensures Truthy(directory) ==> Paths.Render(Paths.Parse(target.value)) == target.value
  {
    if Truthy(directory) then
      if Paths.IsAbsolute(fileName) then
        Paths.BasenameSegments(fileName);
        Some(Paths.Join(directory.value, Paths.Basename(fileName)))
      else
        Some(Paths.Join(directory.value, fileName))
    else if Paths.IsAbsolute(fileName) then
      Some(fileName)
    else
      None
  }

  /** The segments a file name contributes after a configured directory's segments: the
      last one for an absolute name, all of them for a relative one */
  function NameSegments(fileName: string): seq<string> {
    if Paths.IsAbsolute(fileName) then Paths.LastSegment(Paths.Segments(fileName))
    else Paths.Segments(fileName)
  }

  /** The outcome of delivering `message` to the step's `inWriteFile` endpoint,
      for an encoding `fs` accepts and a payload that is a stream (otherwise
      opening or piping the write stream throws, which is not modelled) */
  function Decide(step: Step, message: Message): (o: Outcome)
    ensures o.Thrown? <==> message.header.None?
    ensures o.Error? ==> o.report.message == message && o.report.endpoint == EndpointName
    ensures o.Error? ==> KindOf(o.report.shortMessage).Some?
    ensures o.Write? ==> message.payload == Some(o.request.source)
    ensures o.Write? ==> o.request.encoding == WriteEncoding(step)
    ensures o.Write? ==> Truthy(message.header.value.fileName)
    ensures o.Write? ==> ResolveTarget(step.directory, message.header.value.fileName.value) == Some(o.request.target)
  {
    match message.header
    case None => Thrown
    case Some(header) =>
      if !Truthy(header.fileName) then
        Error(Report(message, MissingFileName))
      else
        match ResolveTarget(step.directory, header.fileName.value)
        case None => Error(Report(message, RelativePathWithoutDirectory))
        case Some(target) => WriteFile(step, message, target)
  }

  /** The calls an outcome makes visible: the reports passed to `error` and the
      write streams opened */
  function Log(o: Outcome): (log: (seq<ErrorReport>, seq<WriteRequest>))
    ensures |log.0| + |log.1| == (if o.Thrown? then 0 else 1)
  {
    match o
    case Write(request) => ([], [request])
    case Error(report) => ([report], [])
    case Thrown => ([], [])
  }

  /** `_writeFile` as written: settles the encoding option, then either opens
      one write stream or calls `error` once (given an encoding `fs` accepts
      and a payload that is a stream; otherwise opening or piping the write
      stream throws, which is not modelled) */
  method WriteFileEffects(step: Step, message: Message, fileName: string)
    returns (errors: seq<ErrorReport>, writes: seq<WriteRequest>)
    ensures |errors| + |writes| == 1
    ensures writes != [] <==> message.payload.Some?
    ensures (errors, writes) == Log(WriteFile(step, message, fileName))
  {
    errors, writes := [], [];
    var stream := message.payload;
    var encoding := DefaultEncoding;
    if Truthy(step.encoding) {
      encoding := step.encoding.value;
    }
    if stream.Some? {
      writes := [WriteRequest(fileName, encoding, stream.value)];
    } else {
      errors := [Report(message, MissingPayload)];
    }
  }

  /** `_receiveWriteFileMessage` as written. Every message with a header leads
      to exactly one `error` call or exactly one write, never both and never
      neither, and the effects are those of `Decide`. A message without a
      header makes the `file_name` lookup throw before anything happens. */
  method ReceiveWriteFileMessage(step: Step, message: Message)
    returns (errors: seq<ErrorReport>, writes: seq<WriteRequest>, thrown: bool)
    ensures thrown <==> message.header.None?
    ensures !thrown ==> |errors| + |writes| == 1
    ensures thrown ==> errors == [] && writes == []
    ensures (errors, writes) == Log(Decide(step, message))
  {
    errors, writes, thrown := [], [], false;
    if message.header.None? {
      thrown := true;
      return;
    }
    var header := message.header.value;
    if Truthy(header.fileName) {
      var fileName := header.fileName.value;
      var fileNameAbs: string;
      if Truthy(step.directory) {
        if Paths.IsAbsolute(fileName) {
          fileNameAbs := Paths.Join(step.directory.value, Paths.Basename(fileName));
        } else {
          fileNameAbs := Paths.Join(step.directory.value, fileName);
        }
        errors, writes := WriteFileEffects(step, message, fileNameAbs);
      } else {
        if Paths.IsAbsolute(fileName) {
          errors, writes := WriteFileEffects(step, message, fileName);
        } else {
          errors := [Report(message, RelativePathWithoutDirectory)];
        }
      }
    } else {
      errors := [Report(message, MissingFileName)];
    }
  }
}

=== FILE: outbound_file_properties.dfy ===
/** What the outbound file step promises, stated over `OutboundFile.Decide`:
one lemma per case of the path policy, the encoding choice, the
one-outcome-per-message guarantee, and concrete instances of the cases the
step's tests exercise.
 */
module OutboundFileProperties {
  import opened JsValues
  import Paths
  import opened OutboundFile

  /** A message whose header carries `file_name` */
  function Named(fileName: string, payload: Option<Stream>): Message {
    Message(Some(Header(Some(fileName))), payload)
  }

  // ---------------------------------------------------------------------------
  // Configuration capture

  /** A truthy directory is stored as given, even one that names no existing
      directory or is relative: `initialize` validates nothing */
  lemma DirectoryStoredUnvalidated(directory: string, encoding: Option<string>)
    requires directory != ""
    ensures Initialize(Some(StepConfig(Some(directory), encoding))).value.directory == Some(directory)
  {
  }

  /** A step keeps only truthy values, so capturing its own properties again
      changes nothing */
  lemma InitializeIdempotent(config: StepConfig)
    ensures var step := Initialize(Some(config)).value;
            Initialize(Some(StepConfig(step.directory, step.encoding))) == Some(step)
  {
  }

  /** The write encoding of a configured step: the configured encoding when it
      is truthy, `binary` otherwise */
  lemma EncodingFromConfiguration(config: StepConfig)
    ensures WriteEncoding(Initialize(Some(config)).value) ==
            (if Truthy(config.encoding) then config.encoding.value else DefaultEncoding)
  {
  }

  // ---------------------------------------------------------------------------
  // Path policy, case by case

  /** No (or an empty) `file_name`: one missing-file-name report and nothing
      else, whatever the configuration and the payload */
  lemma MissingFileNameReported(step: Step, message: Message)
    requires message.header.Some? && !Truthy(message.header.value.fileName)
    ensures Log(Decide(step, message)) == ([Report(message, MissingFileName)], [])
  {
  }

  /** Directory configured, absolute name: the target's segments are the
      directory's followed by the name's last segment only; the name's own
      directory part is discarded. A last segment `..` (from `/x/..`) makes
      Node resolve the target to the directory's parent. */
  lemma AbsoluteNameUnderDirectory(step: Step, fileName: string, stream: Stream)
    requires Truthy(step.directory) && Paths.IsAbsolute(fileName)
    ensures var target := Paths.Join(step.directory.value, Paths.Basename(fileName));
            Decide(step, Named(fileName, Some(stream))) == Write(WriteRequest(target, WriteEncoding(step), stream))
    ensures var target := Paths.Join(step.directory.value, Paths.Basename(fileName));
            Paths.Parse(target).segments ==
            Paths.Segments(step.directory.value) + Paths.LastSegment(Paths.Segments(fileName))
  {
    Paths.BasenameSegments(fileName);
  }

  /** Directory configured: two absolute names with the same last segment are
      written to the same file */
  lemma AbsoluteNamesShareTarget(step: Step, name1: string, name2: string, stream: Stream)
    requires Truthy(step.directory)
    requires Paths.IsAbsolute(name1) && Paths.IsAbsolute(name2)
    requires Paths.LastSegment(Paths.Segments(name1)) == Paths.LastSegment(Paths.Segments(name2))
    ensures Decide(step, Named(name1, Some(stream))) == Decide(step, Named(name2, Some(stream)))
  {
    Paths.BasenameIsLastSegment(name1);
    Paths.BasenameIsLastSegment(name2);
    assert Paths.Basename(name1) == Paths.Basename(name2);
  }

  /** Directory configured, relative name: the name is joined onto the
      directory with all of its segments (including any `..`) */
  lemma RelativeNameUnderDirectory(step: Step, fileName: string, stream: Stream)
    requires Truthy(step.directory) && fileName != "" && !Paths.IsAbsolute(fileName)
    ensures var target := Paths.Join(step.directory.value, fileName);
            Decide(step, Named(fileName, Some(stream))) == Write(WriteRequest(target, WriteEncoding(step), stream))
    ensures Paths.Parse(Paths.Join(step.directory.value, fileName)).segments ==
            Paths.Segments(step.directory.value) + Paths.Segments(fileName)
  {
  }

  /** No directory, absolute name: the name is the target, verbatim */
  lemma AbsoluteNameWithoutDirectory(step: Step, fileName: string, stream: Stream)
    requires !Truthy(step.directory) && Paths.IsAbsolute(fileName)
    ensures Decide(step, Named(fileName, Some(stream))) == Write(WriteRequest(fileName, WriteEncoding(step), stream))
  {
  }

  /** No directory, relative name: one relative-path report and no write; the
      payload is never looked at, so it makes no difference */
  lemma RelativeNameWithoutDirectory(step: Step, fileName: string, payload: Option<Stream>)
    requires !Truthy(step.directory) && fileName != "" && !Paths.IsAbsolute(fileName)
    ensures Log(Decide(step, Named(fileName, payload))) ==
            ([Report(Named(fileName, payload), RelativePathWithoutDirectory)], [])
  {
  }

  /** Once a target is resolved, the payload alone decides: one write of it
      to the target, or one missing-payload report and no write */
  lemma PayloadDecidesWrite(step: Step, message: Message)
    requires message.header.Some? && Truthy(message.header.value.fileName)
    requires ResolveTarget(step.directory, message.header.value.fileName.value).Some?
    ensures var target := ResolveTarget(step.directory, message.header.value.fileName.value).value;
            message.payload.Some? ==>
            Decide(step, message) == Write(WriteRequest(target, WriteEncoding(step), message.payload.value))
    ensures message.payload.None? ==> Log(Decide(step, message)) == ([Report(message, MissingPayload)], [])
  {
  }

  // ---------------------------------------------------------------------------
  // Whole-message guarantees

  /** Every message with a header yields exactly one write or exactly one
      error report, never both and never neither */
  lemma ExactlyOneOutcome(step: Step, message: Message)
    requires message.header.Some?
    ensures var (errors, writes) := Log(Decide(step, message));
            |errors| + |writes| == 1
  {
  }

  /** The condition under which a message with `header` draws each error */
  predicate DrawsError(step: Step, header: Header, kind: ErrorKind) {
    match kind
    case MissingFileName => !Truthy(header.fileName)
    case RelativePathWithoutDirectory =>
      Truthy(header.fileName) && !Truthy(step.directory) && !Paths.IsAbsolute(header.fileName.value)
    case MissingPayload =>
      Truthy(header.fileName) && (Truthy(step.directory) || Paths.IsAbsolute(header.fileName.value))
  }

  /** A message draws the report of a given kind exactly when that kind's
      condition holds (and, for the missing payload, there is no payload) */
  lemma ErrorKindClassified(step: Step, message: Message, kind: ErrorKind)
    requires message.header.Some?
    ensures Decide(step, message) == Error(Report(message, kind)) <==>
            DrawsError(step, message.header.value, kind) && (kind == MissingPayload ==> message.payload.None?)
  {
    var drawn := DrawnKind(step, message);
    if drawn.Some? {
      ReportDeterminesKind(message, drawn.value, kind);
      if DrawsError(step, message.header.value, kind) {
        DrawsErrorExclusive(step, message.header.value, drawn.value, kind);
      }
    }
  }

  /** The kind of report `Decide` makes for a message with a header, if any */
  lemma DrawnKind(step: Step, message: Message) returns (drawn: Option<ErrorKind>)
    requires message.header.Some?
    ensures drawn.None? ==> Decide(step, message).Write?
    ensures drawn.Some? ==> Decide(step, message) == Error(Report(message, drawn.value))
    ensures drawn.Some? ==> DrawsError(step, message.header.value, drawn.value)
    ensures drawn == Some(MissingPayload) ==> message.payload.None?
  {
    var header := message.header.value;
    if !Truthy(header.fileName) {
      drawn := Some(MissingFileName);
    } else if ResolveTarget(step.directory, header.fileName.value).None? {
      drawn := Some(RelativePathWithoutDirectory);
    } else if message.payload.None? {
      drawn := Some(MissingPayload);
    } else {
      drawn := None;
    }
  }

  /** At most one error condition holds for a header */
  lemma DrawsErrorExclusive(step: Step, header: Header, k1: ErrorKind, k2: ErrorKind)
    requires DrawsError(step, header, k1) && DrawsError(step, header, k2)
    ensures k1 == k2
  {
  }

  /** Reports about one message differ exactly when their kinds do */
  lemma ReportDeterminesKind(message: Message, k1: ErrorKind, k2: ErrorKind)
    ensures Report(message, k1) == Report(message, k2) <==> k1 == k2
  {
    if Report(message, k1) == Report(message, k2) {
      assert KindOf(Report(message, k1).shortMessage) == Some(k1);
    }
  }

  /** A write target is absolute unless the configured directory is relative;
      since `initialize` does not check the directory, a relative one yields
      targets relative to the process's working directory */
  lemma TargetAbsoluteUnlessDirectoryRelative(step: Step, message: Message)
    requires Decide(step, message).Write?
    ensures Paths.IsAbsolute(Decide(step, message).request.target) <==>
            !Truthy(step.directory) || Paths.IsAbsolute(step.directory.value)
  {
    var target := Decide(step, message).request.target;
    assert Paths.Parse(target).absolute == Paths.IsAbsolute(target);
  }

  // ---------------------------------------------------------------------------
  // Concrete behaviours

  lemma SegmentsOfOut()
    ensures Paths.Segments("/out") == ["out"]
  {
    assert "/out" == [] + [Paths.Separator] + "out";
    Paths.SegmentsAtSeparator([], "out");
    Paths.SegmentsOfRun("out");
  }

  lemma JoinOutACsv()
    ensures Paths.Join("/out", "a.csv") == "/out/a.csv"
  {
    SegmentsOfOut();
    Paths.SegmentsOfRun("a.csv");
    assert Paths.JoinSegments(["out", "a.csv"]) == "out/a.csv";
  }

  /** `{directory: "/out"}` and the relative name `a.csv`: `/out/a.csv` is written in binary */
  lemma RelativeNameScenario(handle: nat)
    ensures var step := Initialize(Some(StepConfig(Some("/out"), None))).value;
            Decide(step, Named("a.csv", Some(Stream(handle)))) ==
            Write(WriteRequest("/out/a.csv", "binary", Stream(handle)))
  {
    JoinOutACsv();
  }

  /** `{directory: "/out"}` and the absolute name `/tmp/a.csv`: the `/tmp`
      part is dropped and `/out/a.csv` is written */
  lemma AbsoluteNameScenario(handle: nat)
    ensures var step := Initialize(Some(StepConfig(Some("/out"), None))).value;
            Decide(step, Named("/tmp/a.csv", Some(Stream(handle)))) ==
            Write(WriteRequest("/out/a.csv", "binary", Stream(handle)))
  {
    assert "/tmp/a.csv" == "/tmp" + [Paths.Separator] + "a.csv";
    Paths.SegmentsAtSeparator("/tmp", "a.csv");
    Paths.SegmentsOfRun("a.csv");
    Paths.BasenameIsLastSegment("/tmp/a.csv");
    assert Paths.Basename("/tmp/a.csv") == "a.csv";
    JoinOutACsv();
  }

  /** A configured encoding such as `base64` is handed to the write unchanged */
  lemma CustomEncodingScenario(handle: nat)
    ensures var step := Initialize(Some(StepConfig(Some("/out"), Some("base64")))).value;
            Decide(step, Named("a.csv", Some(Stream(handle)))) ==
            Write(WriteRequest("/out/a.csv", "base64", Stream(handle)))
  {
    JoinOutACsv();
  }

  /** No configured directory and the relative name `a.csv`: only the
      relative-path report */
  lemma RelativeNameWithoutDirectoryScenario(handle: nat)
    ensures var step := Initialize(Some(StepConfig(None, None))).value;
            var message := Named("a.csv", Some(Stream(handle)));
            Decide(step, message).Error? &&
            Decide(step, message).report.shortMessage ==
              "If there is no directory in the step configuration, then the file names must be absolute"
  {
  }

  /** A header without `file_name` and no payload: only the missing-file-name report */
  lemma MissingFileNameScenario()
    ensures var step := Initialize(Some(StepConfig(Some("/out"), None))).value;
            var message := Message(Some(Header(None)), None);
            Decide(step, message) == Error(ErrorReport(message, "No 'file_name' property in the header", "inWriteFile"))
  {
  }

  /** A resolvable name without a payload: only the missing-payload report */
  lemma MissingPayloadScenario()
    ensures var step := Initialize(Some(StepConfig(Some("/out"), None))).value;
            var message := Named("a.csv", None);
            Decide(step, message) == Error(ErrorReport(message, "The payload of the message has no stream", "inWriteFile"))
  {
  }
}

=== FILE: paths.dfy ===
/** POSIX file paths, as far as the outbound file step relies on them.

A path string is read as a `Path`: an absolute flag (a leading separator) and
the non-empty runs of characters between separators. `IsAbsolute`, `Basename`
and `Join` play the parts of Node's `path.isAbsolute`, `path.basename` and
`path.join`. `Join` concatenates segments and collapses repeated separators;
it does not resolve `.` or `..` segments and does not keep a trailing
separator, which Node's `path.join` does.
 */
module Paths {

  const Separator: char := '/'

  /** `path.isAbsolute` on POSIX: the string starts with a separator */
  predicate IsAbsolute(s: string) {
    |s| > 0 && s[0] == Separator
  }

  /** One component of a path: non-empty and separator-free */
  predicate IsSegment(s: string) {
    s != "" && Separator !in s
  }

  datatype Path = Path(absolute: bool, segments: seq<string>)

  predicate Canonical(p: Path) {
    forall i :: 0 <= i < |p.segments| ==> IsSegment(p.segments[i])
  }

  /** The component collected so far, if there is one */
  function Flush(pending: string): seq<string> {
    if pending == "" then [] else [pending]
  }

  /** The components of `pending + s`, where `pending` is a partly read component */
  function SplitFrom(s: string, pending: string): (segs: seq<string>)
    requires Separator !in pending
    ensures forall i :: 0 <= i < |segs| ==> IsSegment(segs[i])
    decreases |s|
  {
    if s == [] then Flush(pending)
    else if s[0] == Separator then Flush(pending) + SplitFrom(s[1..], "")
    else SplitFrom(s[1..], pending + [s[0]])
  }

  /** The components of a path string, in order; empty components are dropped */
  function Segments(s: string): (segs: seq<string>)
    ensures forall i :: 0 <= i < |segs| ==> IsSegment(segs[i])
  {
    SplitFrom(s, "")
  }

  function Parse(s: string): (p: Path)
    ensures Canonical(p)
    ensures p.absolute <==> IsAbsolute(s)
  {
    Path(IsAbsolute(s), Segments(s))
  }

  /** The segments written out with one separator between neighbours */
  function JoinSegments(segs: seq<string>): string {
    if segs == [] then ""
    else if |segs| == 1 then segs[0]
    else segs[0] + [Separator] + JoinSegments(segs[1..])
  }

  function Render(p: Path): string {
    (if p.absolute then [Separator] else "") + JoinSegments(p.segments)
  }

  /** A separator-free string is read as at most one component */
  lemma {:induction false} SplitRun(run: string, pending: string)
    requires Separator !in pending && Separator !in run
    ensures SplitFrom(run, pending) == Flush(pending + run)
    decreases |run|
  {
    if run != [] {
      assert run == [run[0]] + run[1..];
      assert run[0] != Separator && Separator !in run[1..];
      SplitRun(run[1..], pending + [run[0]]);
      assert pending + [run[0]] + run[1..] == pending + run;
    } else {
      assert pending + run == pending;
    }
  }

  /** A separator cuts a string into two independently read halves */
  lemma {:induction false} SplitAtSeparator(a: string, b: string, pending: string)
    requires Separator !in pending
    ensures SplitFrom(a + [Separator] + b, pending) == SplitFrom(a, pending) + SplitFrom(b, "")
    decreases |a|
  {
    var s := a + [Separator] + b;
    if a == [] {
      assert s[0] == Separator && s[1..] == b;
    } else {
      assert s[0] == a[0] && s[1..] == a[1..] + [Separator] + b;
      if a[0] == Separator {
        SplitAtSeparator(a[1..], b, "");
      } else {
        SplitAtSeparator(a[1..], b, pending + [a[0]]);
      }
    }
  }

  lemma SegmentsOfRun(run: string)
    requires Separator !in run
    ensures Segments(run) == Flush(run)
  {
    SplitRun(run, "");
    assert "" + run == run;
  }

  lemma SegmentsAtSeparator(a: string, b: string)
    ensures Segments(a + [Separator] + b) == Segments(a) + Segments(b)
  {
    SplitAtSeparator(a, b, "");
  }

  /** Writing canonical segments out and reading them back gives the same segments */
  lemma {:induction false} JoinSegmentsRoundTrip(segs: seq<string>)
    requires forall i :: 0 <= i < |segs| ==> IsSegment(segs[i])
    ensures Segments(JoinSegments(segs)) == segs
    ensures !IsAbsolute(JoinSegments(segs))
  {
    if segs == [] {
    } else if |segs| == 1 {
      assert IsSegment(segs[0]);
      SegmentsOfRun(segs[0]);
    } else {
      var rest := segs[1..];
      assert IsSegment(segs[0]);
      JoinSegmentsRoundTrip(rest);
      SegmentsOfRun(segs[0]);
      SegmentsAtSeparator(segs[0], JoinSegments(rest));
      assert segs == [segs[0]] + rest;
      assert JoinSegments(segs)[0] == segs[0][0];
      assert segs[0][0] in segs[0];
    }
  }

  /** Rendering a canonical path and parsing the result gives the path back */
  lemma ParseRender(p: Path)
    requires Canonical(p)
    ensures Parse(Render(p)) == p
  {
    JoinSegmentsRoundTrip(p.segments);
    var body := JoinSegments(p.segments);
    if p.absolute {
      assert Render(p) == [] + [Separator] + body;
      SegmentsAtSeparator([], body);
    } else {
      assert Render(p) == body;
    }
  }

  /** The longest separator-free suffix of `s` */
  function LastRun(s: string): (run: string)
    ensures Separator !in run
    ensures |run| <= |s| && run == s[|s| - |run|..]
    ensures |run| < |s| ==> s[|s| - |run| - 1] == Separator
  {
    if s == [] || s[|s| - 1] == Separator then ""
    else LastRun(s[..|s| - 1]) + [s[|s| - 1]]
  }

  /** `path.basename` on POSIX: trailing separators are ignored and the
      last run of non-separator characters is returned ("" when there is none) */
  function Basename(s: string): (b: string)
    ensures Separator !in b
    decreases |s|
  {
    if s != [] && s[|s| - 1] == Separator then Basename(s[..|s| - 1])
    else LastRun(s)
  }

  /** The last segment, or nothing for a path without segments */
  function LastSegment(segs: seq<string>): seq<string> {
    if segs == [] then [] else [segs[|segs| - 1]]
  }

  /** `Basename`, which scans from the end of the string, names the last
      component that `Segments`, which scans from the front, finds */
  lemma {:induction false} BasenameIsLastSegment(s: string)
    ensures Flush(Basename(s)) == LastSegment(Segments(s))
    decreases |s|
  {
    var n := |s|;
    if s != [] && s[n - 1] == Separator {
      var front := s[..n - 1];
      assert s == front + [Separator] + [];
      SegmentsAtSeparator(front, []);
      assert Segments([]) == [];
      assert Segments(s) == Segments(front);
      BasenameIsLastSegment(front);
    } else {
      var run := LastRun(s);
      if |run| == n {
        assert run == s;
        SegmentsOfRun(s);
      } else {
        var k := n - |run| - 1;
        assert s == s[..k] + [Separator] + run;
        assert run != [];
        SegmentsAtSeparator(s[..k], run);
        SegmentsOfRun(run);
      }
    }
  }

  /** The basename of a path has the path's last segment as its only segment */
  lemma BasenameSegments(s: string)
    ensures Segments(Basename(s)) == LastSegment(Segments(s))
    ensures !IsAbsolute(Basename(s))
  {
    BasenameIsLastSegment(s);
    SegmentsOfRun(Basename(s));
    if Basename(s) != [] {
      assert Basename(s)[0] in Basename(s);
    }
  }

  /** `path.join(dir, name)`: the name's segments follow the directory's, the
      result is absolute exactly when the directory is, and it is written in
      normal form (one separator between segments, none trailing) */
  function Join(dir: string, name: string): (joined: string)
    ensures Parse(joined) == Path(IsAbsolute(dir), Segments(dir) + Segments(name))
    ensures IsAbsolute(joined) <==> IsAbsolute(dir)
    ensures Render(Parse(joined)) == joined
  {
    var p := Path(IsAbsolute(dir), Segments(dir) + Segments(name));
    ParseRender(p);
    Render(p)
  }
}
